=== FILE: README.md ===
# go-remap in Dafny

go-remap is a key-value store: each string key maps to a JSON value. The
`remap` package holds a driver registry and a `Map` facade. The facade
checks the kind of a caller's value, converts the value to JSON, and hands
the text to a storage connection. The one connection is SQLite, in
`sqlite/remap_sqlite.go`. It stores each key in two tables:

- `remap_keys` has rows `{id, mapkey, maptype}`;
- `remap_values` has rows `{id, mapvalue}`, where `mapvalue` may be NULL.

This project models that core as a sequential state machine:

- `wrappers.dfy`: `Option` and `Result`.
- `store_errors.dfy`: the connection errors `Dup` (`remap.ErrDup`) and
  `NotFound` (`remap.ErrNotFound`), and `Failed(step)` for any other SQL
  engine error. The step says which statement failed.
- `remap_sqlite.dfy` (module `RemapSqlite`): the tables as an immutable
  `Store`:
  - a sequence of key rows;
  - a map from id to payload;
  - the next id the engine assigns, standing in for `LastInsertId`;
  - whether the schema cascades key deletions to value rows.

  Each connection operation is a pure function. It takes the tables and a
  set of failing steps, and returns the Go result and the tables afterwards.
  The transaction wrappers `RunTx` and `DoTransaction` take the body as a
  function and are all-or-nothing. `View` is the abstract key→payload map
  that the tables represent. It is the partner every operation is proved
  against.
- `remap_sqlite_laws.dfy` (module `RemapSqliteLaws`): every operation keeps
  the table invariant `Valid`:
  - key names and ids are unique;
  - every key row has its value row;
  - every id in use is below the next id;
  - under a cascading schema, no value row lacks its key row.

  It also proves the get/set/delete laws against `View`.
- `values.dfy` (module `Values`): `reflect` kinds as an enumeration, with one
  level of `reflect.Indirect`. `Decode` is `json.Unmarshal` through a pointer:
  JSON null never fails, and it resets only a pointer or interface variable.
  Every other text goes to a caller-supplied `Codec`, whose decoder
  inverts its encoder (`Inverts`).
- `remap.dfy` (module `Remap`): `Register`, `New`, `From`, and the `Map`
  operations `SetIfNotExists`, `Set` and `Get`. A Go panic is the `Panicked`
  outcome of `Call`.
- `remap_laws.dfy` (module `RemapLaws`): the behaviour the package's tests
  exercise. This covers round trip, overwrite, exclusive creation, reads of
  missing keys, delete-then-get, and the registry and `From` wiring.

Engine failures come from a parameter `faults: set<Step>`. A step in the set
fails when the operation reaches it. Every law quantifies over the fault set.
A law that needs a step to succeed names that step in its `requires`. For
example, the read-back laws need `Query` to succeed, and the success laws need
a whole step set such as `SetStringSteps` to succeed.

The model follows what the code does, including where that goes beyond or
against its own doc comments:

- `SetIfNotExists` on an existing key returns `(false, ErrDup)`. The doc
  comment at remap.go:91-92 mentions only `false` for an existing key. The
  unique-constraint branch (sqlite/remap_sqlite.go:63-65) returns `remap.ErrDup`.
  `doTransaction` passes it through, and `Map.SetIfNotExists` forwards it
  unchanged.
- `GetString` turns a failed query into the text `"null"` with no error. The
  scan leaves the `NullString` invalid, and validity is tested before the
  error. The branch that would return the query error can never be taken.
  The contract of `RemapSqlite.GetString` proves that its only error is
  `NotFound`. Through `Map.Get`, a failing query reads as JSON null. `Get` returns nil,
  and a caller's variable that is not a pointer or interface keeps its value.
- The facade refuses composite values:
  - `Map.SetIfNotExists` returns `ErrInvalidType`, as its doc comment at
    remap.go:94-95 says;
  - `Map.Set` and `Map.Get` panic.
- The `Conn` interface has no `DelString`, and `remap.go` defines no `Map.Del`
  and no `ErrNotFound`. Deletion is modelled only as the SQLite connection's
  `DelString`. The deletion test is stated at that level (`RemapLaws.SetDelThenGet`).
- When the commit of `SetIfNotExists` fails, the call reports
  `created == true` together with the commit error. This happens because the
  closure sets `success` before the commit. The tables are rolled back.

## Model

| member | source | states |
|---|---|---|
| RemapSqlite.TagCode | sqlite/remap_sqlite.go:45-49 | the maptype codes 1, 2, 3 name typeString, typeObject, typeArray and read back to the same tag; key rows store the tag itself, so the codes appear only here |
| RemapSqlite.Clone | sqlite/remap_sqlite.go:51-55 | Clone never fails and returns a handle on the same database, not a copy |
| RemapSqlite.FindKey | sqlite/remap_sqlite.go:122-125 | the id lookup finds the first key row with the name, and reports absence only when no row has it |
| RemapSqlite.SelectJoined | sqlite/remap_sqlite.go:92-96 | the GetString join finds the first typeString key row with that name that has a value row, and nothing when there is none |
| RemapSqlite.RemoveNamed | sqlite/remap_sqlite.go:108-111 | the DELETE keeps exactly the key rows with other names |
| RemapSqlite.RunTx | sqlite/remap_sqlite.go:183-193 | a transaction either applies its whole body at commit or leaves the tables as they were; a body error is returned as it is |
| RemapSqlite.DoTransaction | sqlite/remap_sqlite.go:169-202 | failing to get a connection, to begin, in the body or at commit leaves the tables unchanged; the body's own error, ErrDup included, is returned unchanged |
| RemapSqlite.SetIfNotExists | sqlite/remap_sqlite.go:57-88 | on a new key it adds one typeString key row under a fresh id and its value row, and nothing else; on an existing key it reports ErrDup and changes nothing; any error leaves the tables unchanged; `created` is true exactly when the key was new and every step up to the value insert ran, so a failed commit reports true with its error |
| RemapSqlite.SetString | sqlite/remap_sqlite.go:115-167 | an existing key keeps its row and only its payload changes; a new key gets a key row and a value row with the same id; a taken value id makes the plain insert fail; any error leaves the tables unchanged |
| RemapSqlite.GetString | sqlite/remap_sqlite.go:90-106 | a missing key is NotFound, a NULL payload or a failed query reads as "null", otherwise the payload; no other error can occur |
| RemapSqlite.DelString | sqlite/remap_sqlite.go:108-113 | deleting succeeds whether or not the key exists; afterwards no row has the key, other key rows stay; value rows are untouched without cascade, and under cascade exactly those of the deleted rows go |
| RemapSqliteLaws.RemoveNamedUnique | sqlite/remap_sqlite.go:110 | deleting the rows of a name keeps names and ids unique |
| RemapSqliteLaws.SelectJoinedIsView | sqlite/remap_sqlite.go:93-95 | the join finds a row exactly when the abstract map holds the name, and yields that entry's payload |
| RemapSqliteLaws.GetStringReadsView | sqlite/remap_sqlite.go:90-106 | when the query runs, GetString returns the abstract map's entry for the key, or NotFound when the key is absent |
| RemapSqliteLaws.SetIfNotExistsPreservesValid | sqlite/remap_sqlite.go:57-88 | SetIfNotExists keeps names and ids unique, keeps each key row paired with its value row, keeps ids below the next id, and keeps the typeString tagging |
| RemapSqliteLaws.SetIfNotExistsView | sqlite/remap_sqlite.go:57-88 | a successful call adds an absent key to the abstract map; a failed one leaves it unchanged; ErrDup means the key was present |
| RemapSqliteLaws.SetStringPreservesValid | sqlite/remap_sqlite.go:115-167 | SetString keeps the table invariant and the typeString tagging |
| RemapSqliteLaws.SetStringSucceedsOnValid | sqlite/remap_sqlite.go:143-160 | on valid tables SetString fails only when the engine fails; the inserted value row never collides |
| RemapSqliteLaws.SetStringView | sqlite/remap_sqlite.go:122-166 | a successful SetString maps the key to the new payload in the abstract map and changes no other key |
| RemapSqliteLaws.SetStringThenGetString | sqlite/remap_sqlite.go:143-166 | after a SetString that returns nil, on a new key or an existing one, GetString of the key returns the value written |
| RemapSqliteLaws.EmptyValid | remap_test.go:78-91 | a freshly created schema, with no rows, meets the table invariant and represents the empty map |
| RemapSqliteLaws.DelStringPreservesValid | sqlite/remap_sqlite.go:108-113 | DelString keeps the table invariant under either schema |
| RemapSqliteLaws.DelStringView | sqlite/remap_sqlite.go:108-113 | a successful DelString removes exactly that key from the abstract map |
| RemapSqliteLaws.DelThenGetNotFound | sqlite/remap_sqlite.go:108-113 | after a successful delete, GetString of the key is NotFound on any tables |
| RemapSqliteLaws.OrphanValueRowBreaksOnlySetString | sqlite/remap_sqlite.go:155-160 | on any tables where a new key's fresh id already has a value row, SetString's plain insert fails while SetIfNotExists's upsert succeeds and the value reads back |
| Values.CompositeIsOneIndirection | remap.go:100-107 | values are refused when they are a map, array, struct, slice or channel, or point directly to one; deeper pointers, nil pointers and interfaces get past the kind check |
| Remap.Register | remap.go:72-83 | a nil driver panics first, a taken name panics next; otherwise exactly the new mapping is added |
| Remap.New | remap.go:15-27 | New opens through the registered driver and wraps an opening error |
| Remap.From | remap.go:31-40 | From wraps the cloned connection and wraps any Clone error |
| Remap.SetIfNotExists | remap.go:99-115 | composite kinds return ErrInvalidType and leave the tables unchanged; the connection's flag and error, ErrDup included, are returned unchanged |
| Remap.Set | remap.go:117-137 | composite kinds panic before the tables are touched; an encoding failure returns the marshalling error with the tables unchanged; otherwise the result is SetString's tables and nil, or SetString's error wrapped |
| RemapLaws.SetSucceedsOnValid | remap_test.go:14-17 | on valid tables with no engine failure, Set of an encodable scalar returns nil |
| Remap.Get | remap.go:139-159 | composite targets panic; the only errors are a wrapped NotFound and a decoding error; a failed read is a wrapped NotFound; a text that is read is refused unless the target is a non-nil pointer, and is otherwise the `json.Unmarshal` decoding into the caller's variable; a failing query reaches the caller as JSON null, so there is no error and a variable that is not a pointer or interface keeps its value |
| RemapLaws.SetPreservesValid | remap.go:127-135 | Set keeps the table invariant and the typeString tagging |
| RemapLaws.SetIfNotExistsPreservesValid | remap.go:109-114 | SetIfNotExists through the facade keeps the table invariant and the typeString tagging |
| RemapLaws.GetReadsView | remap.go:149-158 | Get through a non-nil pointer decodes the abstract map's entry for the key, any other target is refused, and a missing key is a wrapped NotFound |
| RemapLaws.SetThenGet | remap_test.go:14-27 | after a Set that returns nil, Get through `&value` yields the value that was set, whatever the variable held before |
| RemapLaws.SetSetThenGet | remap_test.go:29-40 | after two successful Sets of one key, Get yields the second value |
| RemapLaws.SetIfNotExistsTwice | remap.go:109-114 | on an absent key, the first call returns true; a second call returns false with ErrDup, changes nothing, and Get still yields the first value |
| RemapLaws.SetIfNotExistsOnFreshStore | remap_test.go:63-73 | on a fresh schema, SetIfNotExists of a scalar returns true with no error |
| RemapLaws.GetAbsent | remap.go:149-152 | Get of a missing key returns an error that wraps NotFound and decodes nothing |
| RemapLaws.SetDelThenGet | remap_test.go:43-60 | a key that was Set and then deleted reads through Get as a wrapped NotFound |
| RemapLaws.RegisterThenNew | remap.go:19 | after registering a driver under a new name, New opens through that driver |
| RemapLaws.FromSqliteSharesDatabase | remap_test.go:91 | From over an SQLite handle succeeds and shares that handle's database |

## Left out

- SQL text, `database/sql`, `go-sqlite3` and `context` are foreign libraries. They are replaced by the table state and the `faults` parameter.
- `LastInsertId` and 64-bit ids: the engine's id assignment is a counter that never reuses an id, like AUTOINCREMENT. The model does not cover rowid reuse or int64 overflow. `RemapSqliteLaws.OrphanValueRowBreaksOnlySetString` shows what a reused id would do to SetString.
- The schema file is not part of this model, so whether a key delete cascades to its value row is the `cascade` field of `Store`.
- Concurrency is not modelled: the `driversMu` lock, and the guarantee that concurrent `SetIfNotExists` calls on one key have a single winner. All operations are sequential.
- RemapSqlite.SetIfNotExists: when both happen at once, an engine failure of the key insert is taken to come before the unique-constraint check.
- The panic for a driver that is not go-sqlite3 (sqlite/remap_sqlite.go:180) is a runtime type assertion on a foreign driver.
- `encoding/json` and `reflect` are foreign. JSON is the abstract `Codec`, and kinds are an enumeration. Sized integer, unsigned and float kinds are folded together.
- Remap.Get: returns the decoded value instead of writing through the caller's pointer. A failing `json.Unmarshal` that partly writes its target is not modelled.
- Remap.Get: the codec stands for the type of the variable the target points to. A target whose pointee kind disagrees with that type is not detected as such; the codec's decoding decides whether the text fits.
- Remap.Get: only the exact text `null` is treated as JSON null. Surrounding white space and other spellings are left to the codec.
- Error-message text from `fmt.Errorf` is not modelled. Only which error is wrapped is kept.
- Opening connections is I/O: `sql.Open`, `SQLiteDriver.Open`, `DB`, and the `init` registration. `New` takes the driver's `Open` as a parameter.
- Remap.New: an unregistered driver name panics on a nil map entry. This is a precondition.
- The `Field` and `Index` types (remap.go:42-50) are unused.
- The facade works on the SQLite tables directly. SQLite is the only `Conn` implementation.

=== FILE: remap.dfy ===
/**
 * Package remap: the driver registry and the `Map` facade, which checks the
 * kind of a caller's value, converts it to JSON and hands the text to the
 * storage connection.  The facade is modelled over the SQLite connection,
 * the one implementation of `Conn`; each operation takes the tables of the
 * database behind the Map and returns them as they are afterwards.
 */
module Remap {
  import opened Wrappers
  import opened StoreErrors
  import Values
  import S = RemapSqlite

  /** The errors the facade returns.  Wrapping text is not modelled; what is wrapped is. */
  datatype MapError =
    | InvalidType                 // remap.ErrInvalidType
    | MarshalFailed               // the value could not be encoded as JSON
    | UnmarshalFailed             // the stored text could not be decoded
    | Conn(e: ConnError)          // the connection's error, returned as it is
    | SetFailed(e: ConnError)     // Set wraps the connection error
    | GetFailed(e: ConnError)     // Get wraps the connection error
    | InitFailed(e: ConnError)    // New and From wrap an opening or cloning error

  /** The connection error inside an error, as `errors.Is` finds it. */
  function Cause(err: MapError): Option<ConnError>
  {
    match err
    case Conn(e) => Some(e)
    case SetFailed(e) => Some(e)
    case GetFailed(e) => Some(e)
    case InitFailed(e) => Some(e)
    case _ => None
  }

  datatype PanicReason = NilDriver | DuplicateDriver(name: string) | CompositeNotImplemented

  /** How a Go call ends: it returns, or it panics. */
  datatype Call<+T> = Returned(value: T) | Panicked(reason: PanicReason)

  // ---------------------------------------------------------------------
  // Driver registry

  /**
   * `Register`: a nil driver and a name already taken are both fatal; the
   * nil check comes first.  Otherwise exactly one mapping is added.
   */
  function Register<D>(drivers: map<string, D>, name: string, driver: Option<D>): (r: Call<map<string, D>>)
    ensures driver.None? ==> r == Panicked(NilDriver)
    ensures driver.Some? && name in drivers ==> r == Panicked(DuplicateDriver(name))
    ensures r.Returned? <==> driver.Some? && name !in drivers
    ensures r.Returned? ==>
      && r.value.Keys == drivers.Keys + {name}
      && r.value[name] == driver.value
      && forall n | n in drivers :: r.value[n] == drivers[n]
  {
    if driver.None? then Panicked(NilDriver)
    else if name in drivers then Panicked(DuplicateDriver(name))
    else Returned(drivers[name := driver.value])
  }

  /** A Map holds one connection handle. */
  datatype Map = Map(c: S.SqliteConn)

  /**
   * `New`: look the driver up and ask it to open the data source; an
   * opening error comes back wrapped.  `open` stands for `Driver.Open`.
   */
  function New<D>(drivers: map<string, D>, driver: string, dataSourceName: string,
                  open: (D, string) -> Result<S.SqliteConn, ConnError>): (r: Result<Map, MapError>)
    requires driver in drivers
    ensures r.Success? <==> open(drivers[driver], dataSourceName).Success?
    ensures r.Success? ==> r.value.c == open(drivers[driver], dataSourceName).value
    ensures r.Failure? ==> Cause(r.error) == Some(open(drivers[driver], dataSourceName).error)
  {
    match open(drivers[driver], dataSourceName)
    case Failure(e) => Failure(InitFailed(e))
    case Success(c) => Success(Map(c))
  }

  /** `From`: wrap `other.Clone()`; a Clone error comes back wrapped. */
  function From(other: S.SqliteConn, clone: S.SqliteConn -> Result<S.SqliteConn, ConnError>): (r: Result<Map, MapError>)
    ensures r.Success? <==> clone(other).Success?
    ensures r.Success? ==> r.value.c == clone(other).value
    ensures r.Failure? ==> r.error == InitFailed(clone(other).error)
  {
    match clone(other)
    case Failure(e) => Failure(InitFailed(e))
    case Success(c) => Success(Map(c))
  }

  // ---------------------------------------------------------------------
  // Map operations

  /** What an operation returned, and the tables afterwards. */
  datatype Effect<+T> = Effect(result: T, store: S.Store)

  /** The facade error for a connection error passed through unchanged. */
  function AsConnError(err: Option<ConnError>): Option<MapError>
  {
    match err
    case None => None
    case Some(e) => Some(Conn(e))
  }

  /**
   * `Map.SetIfNotExists`: composite kinds are refused with ErrInvalidType
   * before anything is encoded; otherwise the JSON text goes to the
   * connection, whose flag and error are returned as they are.
   */
  function SetIfNotExists<T>(s: S.Store, faults: set<Step>, key: string, value: T, codec: Values.Codec<T>)
    : (r: Effect<(bool, Option<MapError>)>)
    ensures Values.Composite(codec.kindOf(value)) ==> r == Effect((false, Some(InvalidType)), s)
    ensures !Values.Composite(codec.kindOf(value)) && codec.marshal(value).None? ==>
      r == Effect((false, Some(MarshalFailed)), s)
    ensures r.result.1.Some? ==> r.store == s
    ensures !Values.Composite(codec.kindOf(value)) && codec.marshal(value).Some? ==>
      var a := S.SetIfNotExists(s, faults, key, codec.marshal(value).value);
      r.result.0 == a.created && r.result.1 == AsConnError(a.err) && r.store == a.store
  {
    if Values.Composite(codec.kindOf(value)) then Effect((false, Some(InvalidType)), s)
    else match codec.marshal(value)
      case None => Effect((false, Some(MarshalFailed)), s)
      case Some(json) =>
        var a := S.SetIfNotExists(s, faults, key, json);
        Effect((a.created, AsConnError(a.err)), a.store)
  }

  /**
   * `Map.Set`: composite kinds panic before the store is reached; an
   * encoding error or a connection error leaves the tables as they were.
   */
  function Set<T>(s: S.Store, faults: set<Step>, key: string, value: T, codec: Values.Codec<T>)
    : (r: Effect<Call<Option<MapError>>>)
    ensures r.result.Panicked? <==> Values.Composite(codec.kindOf(value))
    ensures r.result.Panicked? ==> r.result.reason == CompositeNotImplemented && r.store == s
    ensures r.result.Returned? && r.result.value.Some? ==> r.store == s
    ensures r.result.Returned? && r.result.value.Some? ==>
      r.result.value.value == MarshalFailed || r.result.value.value.SetFailed?
    ensures r.result == Returned(None) ==>
      codec.marshal(value).Some? && S.SetString(s, faults, key, codec.marshal(value).value) == S.Written(None, r.store)
    // an encoding failure is reported before the store is reached
    ensures !Values.Composite(codec.kindOf(value)) && codec.marshal(value).None? ==>
      r == Effect(Returned(Some(MarshalFailed)), s)
    // otherwise SetString decides: its tables are kept, its error comes back wrapped
    ensures !Values.Composite(codec.kindOf(value)) && codec.marshal(value).Some? ==>
      var w := S.SetString(s, faults, key, codec.marshal(value).value);
      && r.store == w.store
      && r.result == Returned(if w.err.None? then None else Some(SetFailed(w.err.value)))
  {
    if Values.Composite(codec.kindOf(value)) then Effect(Panicked(CompositeNotImplemented), s)
    else match codec.marshal(value)
      case None => Effect(Returned(Some(MarshalFailed)), s)
      case Some(json) =>
        var w := S.SetString(s, faults, key, json);
        match w.err
        case Some(e) => Effect(Returned(Some(SetFailed(e))), s)
        case None => Effect(Returned(None), w.store)
  }

  /**
   * `Map.Get`: `target` is the kind of the argument the caller passes, and
   * `current` the contents of the variable it points to.  Composite targets
   * panic; a missing key comes back as a wrapped NotFound; the text is
   * otherwise decoded as `json.Unmarshal` does, which refuses a target that
   * is not a non-nil pointer.
   */
  function Get<T>(s: S.Store, faults: set<Step>, key: string, target: Values.Kind, current: T, codec: Values.Codec<T>)
    : (r: Call<Result<T, MapError>>)
    ensures r.Panicked? <==> Values.Composite(target)
    ensures r.Panicked? ==> r.reason == CompositeNotImplemented
    // the connection only ever reports NotFound, so no engine error reaches the caller
    ensures r.Returned? && r.value.Failure? ==>
      r.value.error == GetFailed(NotFound) || r.value.error == UnmarshalFailed
    ensures r.Returned? && r.value.Success? ==> Values.Settable(target) && S.GetString(s, faults, key).Success?
    // a read that fails is a wrapped NotFound
    ensures !Values.Composite(target) && S.GetString(s, faults, key).Failure? ==>
      r == Returned(Failure(GetFailed(NotFound)))
    // a text that is read cannot be decoded through anything but a non-nil pointer
    ensures !Values.Composite(target) && S.GetString(s, faults, key).Success? && !Values.Settable(target) ==>
      r == Returned(Failure(UnmarshalFailed))
    // through a non-nil pointer, the decoding is the result
    ensures !Values.Composite(target) && S.GetString(s, faults, key).Success? && Values.Settable(target) ==>
      var d := Values.Decode(codec, target.target.value, S.GetString(s, faults, key).value, current);
      r == Returned(if d.Some? then Success(d.value) else Failure(UnmarshalFailed))
    // a failing query reaches the caller as JSON null: no error, and a
    // variable that is not nillable keeps its value
    ensures !Values.Composite(target) && Query in faults && Values.Settable(target) ==>
      r.Returned? && r.value.Success?
    ensures !Values.Composite(target) && Query in faults && Values.Settable(target)
            && !Values.Nillable(target.target.value) ==>
      r == Returned(Success(current))
  {
    if Values.Composite(target) then Panicked(CompositeNotImplemented)
    else match S.GetString(s, faults, key)
      case Failure(e) => Returned(Failure(GetFailed(e)))
      case Success(json) =>
        if !Values.Settable(target) then Returned(Failure(UnmarshalFailed))
        else match Values.Decode(codec, target.target.value, json, current)
          case None => Returned(Failure(UnmarshalFailed))
          case Some(v) => Returned(Success(v))
  }
}

=== FILE: remap_laws.dfy ===
/**
 * The behaviour the package's tests exercise, proved of the facade over the
 * SQLite store: round trip, overwrite, exclusive creation, reads of missing
 * keys, deletion, and the registry and `From` wiring.
 */
module RemapLaws {
  import opened Wrappers
  import opened StoreErrors
  import Values
  import S = RemapSqlite
  import L = RemapSqliteLaws
  import opened Remap

  /** Set keeps the table invariant and the typeString-only tagging. */
  lemma SetPreservesValid<T>(s: S.Store, faults: set<Step>, key: string, value: T, codec: Values.Codec<T>)
    requires S.Valid(s) && S.StringOnly(s)
    ensures S.Valid(Set(s, faults, key, value, codec).store)
    ensures S.StringOnly(Set(s, faults, key, value, codec).store)
  {
    if !Values.Composite(codec.kindOf(value)) && codec.marshal(value).Some? {
      L.SetStringPreservesValid(s, faults, key, codec.marshal(value).value);
    }
  }

  /** SetIfNotExists keeps the table invariant and the typeString-only tagging. */
  lemma SetIfNotExistsPreservesValid<T>(s: S.Store, faults: set<Step>, key: string, value: T, codec: Values.Codec<T>)
    requires S.Valid(s) && S.StringOnly(s)
    ensures S.Valid(SetIfNotExists(s, faults, key, value, codec).store)
    ensures S.StringOnly(SetIfNotExists(s, faults, key, value, codec).store)
  {
    if !Values.Composite(codec.kindOf(value)) && codec.marshal(value).Some? {
      L.SetIfNotExistsPreservesValid(s, faults, key, codec.marshal(value).value);
    }
  }

  /** On valid tables with no engine failure, Set of an encodable scalar returns nil. */
  lemma SetSucceedsOnValid<T>(s: S.Store, faults: set<Step>, key: string, value: T, codec: Values.Codec<T>)
    requires S.Valid(s) && faults !! S.SetStringSteps
    requires !Values.Composite(codec.kindOf(value)) && codec.marshal(value).Some?
    ensures Set(s, faults, key, value, codec).result == Returned(None)
  {
    L.SetStringSucceedsOnValid(s, faults, key, codec.marshal(value).value);
  }

  /**
   * A key that is in the view reads back through Get, via a non-nil
   * pointer, as its decoded payload; a missing key is a wrapped NotFound.
   */
  lemma GetReadsView<T>(s: S.Store, faults: set<Step>, key: string, target: Values.Kind, current: T, codec: Values.Codec<T>)
    requires Query !in faults && !Values.Composite(target)
    ensures key !in S.View(s) ==> Get(s, faults, key, target, current, codec) == Returned(Failure(GetFailed(NotFound)))
    ensures key in S.View(s) && !Values.Settable(target) ==>
      Get(s, faults, key, target, current, codec) == Returned(Failure(UnmarshalFailed))
    ensures key in S.View(s) && Values.Settable(target) ==>
      Get(s, faults, key, target, current, codec) ==
        match Values.Decode(codec, target.target.value, S.Rendered(S.View(s)[key]), current)
        case None => Returned(Failure(UnmarshalFailed))
        case Some(v) => Returned(Success(v))
  {
    L.GetStringReadsView(s, faults, key);
  }

  /**
   * Round trip: after a Set that returned nil, Get through a pointer to a
   * variable of the value's type (`&value`) decodes the value that was set,
   * whatever the variable held.
   */
  lemma SetThenGet<T(!new)>(s: S.Store, f1: set<Step>, f2: set<Step>, key: string, value: T,
                            target: Values.Kind, current: T, codec: Values.Codec<T>)
    requires S.Valid(s) && S.StringOnly(s) && Values.Inverts(codec)
    requires Set(s, f1, key, value, codec).result == Returned(None)
    requires Query !in f2 && target == Values.Pointer(Some(codec.kindOf(value)))
    ensures Get(Set(s, f1, key, value, codec).store, f2, key, target, current, codec) == Returned(Success(value))
  {
    var json := codec.marshal(value).value;
    var t := Set(s, f1, key, value, codec).store;
    L.SetStringView(s, f1, key, json);
    assert S.View(t) == S.View(s)[key := S.Text(json)];
    GetReadsView(t, f2, key, target, current, codec);
  }

  /** Overwrite: of two successful Sets of one key, Get sees the second value. */
  lemma SetSetThenGet<T(!new)>(s: S.Store, f1: set<Step>, f2: set<Step>, f3: set<Step>, key: string,
                               v1: T, v2: T, target: Values.Kind, current: T, codec: Values.Codec<T>)
    requires S.Valid(s) && S.StringOnly(s) && Values.Inverts(codec)
    requires Set(s, f1, key, v1, codec).result == Returned(None)
    requires Set(Set(s, f1, key, v1, codec).store, f2, key, v2, codec).result == Returned(None)
    requires Query !in f3 && target == Values.Pointer(Some(codec.kindOf(v2)))
    ensures Get(Set(Set(s, f1, key, v1, codec).store, f2, key, v2, codec).store, f3, key, target, current, codec)
            == Returned(Success(v2))
  {
    SetPreservesValid(s, f1, key, v1, codec);
    SetThenGet(Set(s, f1, key, v1, codec).store, f2, f3, key, v2, target, current, codec);
  }

  /** On valid tables a key the view lacks has no key row at all. */
  lemma AbsentFromViewHasNoRow(s: S.Store, key: string)
    requires S.Valid(s) && S.StringOnly(s) && key !in S.View(s)
    ensures S.FindKey(s.keys, key).None?
  {
    L.SelectJoinedIsView(s.keys, s.values, key);
    if S.FindKey(s.keys, key).Some? {
      var i := S.FindKey(s.keys, key).value;
      assert s.keys[i] in s.keys;
      assert S.Joins(s.keys[i], s.values, key);
      assert false;
    }
  }

  /**
   * Exclusive creation: on a key the store lacks, SetIfNotExists reports
   * `true`; a second call reports `false` with ErrDup passed through
   * unchanged, leaves the tables alone, and Get still sees the first value.
   */
  lemma SetIfNotExistsTwice<T(!new)>(s: S.Store, f1: set<Step>, f2: set<Step>, f3: set<Step>, key: string,
                                     v1: T, v2: T, target: Values.Kind, current: T, codec: Values.Codec<T>)
    requires S.Valid(s) && S.StringOnly(s) && key !in S.View(s) && Values.Inverts(codec)
    requires f1 !! S.SetIfNotExistsSteps && f2 !! {AcquireConn, Begin, InsertKey} && Query !in f3
    requires !Values.Composite(codec.kindOf(v1)) && codec.marshal(v1).Some?
    requires !Values.Composite(codec.kindOf(v2)) && codec.marshal(v2).Some?
    requires target == Values.Pointer(Some(codec.kindOf(v1)))
    ensures var first := SetIfNotExists(s, f1, key, v1, codec);
      var second := SetIfNotExists(first.store, f2, key, v2, codec);
      && first.result == (true, None)
      && second.result == (false, Some(Conn(Dup)))
      && second.store == first.store
      && Get(second.store, f3, key, target, current, codec) == Returned(Success(v1))
  {
    var j1 := codec.marshal(v1).value;
    AbsentFromViewHasNoRow(s, key);
    var first := SetIfNotExists(s, f1, key, v1, codec);
    L.SetIfNotExistsView(s, f1, key, j1);
    assert S.View(first.store) == S.View(s)[key := S.Text(j1)];
    var t := first.store;
    assert S.FindKey(t.keys, key).Some? by {
      assert t.keys[|s.keys|].name == key;
    }
    GetReadsView(t, f3, key, target, current, codec);
  }

  /** The test scenario on a freshly created schema: the first SetIfNotExists creates the key. */
  lemma SetIfNotExistsOnFreshStore<T>(cascade: bool, faults: set<Step>, key: string, value: T, codec: Values.Codec<T>)
    requires faults !! S.SetIfNotExistsSteps
    requires !Values.Composite(codec.kindOf(value)) && codec.marshal(value).Some?
    ensures SetIfNotExists(S.Empty(cascade), faults, key, value, codec).result == (true, None)
  {
  }

  /** Get of a missing key wraps the connection's NotFound and decodes nothing. */
  lemma GetAbsent<T>(s: S.Store, faults: set<Step>, key: string, target: Values.Kind, current: T, codec: Values.Codec<T>)
    requires key !in S.View(s) && Query !in faults && !Values.Composite(target)
    ensures var r := Get(s, faults, key, target, current, codec);
      r.Returned? && r.value.Failure? && Cause(r.value.error) == Some(NotFound) && r.value.error != Conn(NotFound)
  {
    GetReadsView(s, faults, key, target, current, codec);
  }

  /**
   * The deletion test, at the connection level where DelString lives: a key
   * that was Set and then deleted reads as a wrapped NotFound, on any tables.
   */
  lemma SetDelThenGet<T>(s: S.Store, f1: set<Step>, f2: set<Step>, key: string, value: T,
                         target: Values.Kind, current: T, codec: Values.Codec<T>)
    requires Set(s, f1, key, value, codec).result == Returned(None)
    requires DeleteKey !in f2 && Query !in f2 && !Values.Composite(target)
    ensures var t := S.DelString(Set(s, f1, key, value, codec).store, f2, key);
      t.err.None? && Get(t.store, f2, key, target, current, codec) == Returned(Failure(GetFailed(NotFound)))
  {
    L.DelThenGetNotFound(Set(s, f1, key, value, codec).store, f2, key);
  }

  /** A registered driver is the one New opens with. */
  lemma RegisterThenNew<D>(drivers: map<string, D>, name: string, d: D, dataSourceName: string,
                           open: (D, string) -> Result<S.SqliteConn, ConnError>)
    requires name !in drivers
    ensures Register(drivers, name, Some(d)).Returned?
    ensures var registered := Register(drivers, name, Some(d)).value;
      && name in registered
      && New(registered, name, dataSourceName, open) ==
           match open(d, dataSourceName)
           case Success(c) => Success(Map(c))
           case Failure(e) => Failure(InitFailed(e))
  {
  }

  /** `From` over an SQLite handle succeeds and shares that handle's database. */
  lemma FromSqliteSharesDatabase(other: S.SqliteConn)
    ensures From(other, S.Clone).Success?
    ensures From(other, S.Clone).value.c.db == other.db
  {
  }
}

=== FILE: remap_sqlite.dfy ===
/**
 * The SQLite storage connection of go-remap, as a sequential state machine.
 *
 * The database is two tables: `remap_keys` rows `{id, mapkey, maptype}` and
 * `remap_values` rows `{id, mapvalue}` where `mapvalue` may be NULL.  A store
 * operation is a pure function from the current tables (and the set of steps
 * at which the SQL engine fails) to its Go result and the tables afterwards.
 * Whether deleting a key row cascades to its value row depends on a schema
 * file that is not part of this model, so it is the `cascade` field.
 */
module RemapSqlite {
  import opened Wrappers
  import opened StoreErrors

  type Id = nat

  /** The `maptype` column: typeString, typeObject, typeArray. */
  datatype TypeTag = TypeString | TypeObject | TypeArray

  /** The integer stored in the `maptype` column for a tag. */
  function TagCode(t: TypeTag): (code: int)
    ensures TagOf(code) == Some(t)
  {
    match t
    case TypeString => 1
    case TypeObject => 2
    case TypeArray => 3
  }

  /** Reads a `maptype` column back; codes outside 1..3 name no tag. */
  function TagOf(code: int): Option<TypeTag>
  {
    if code == 1 then Some(TypeString)
    else if code == 2 then Some(TypeObject)
    else if code == 3 then Some(TypeArray)
    else None
  }

  /** A `mapvalue` cell: SQL NULL or a JSON text. */
  datatype Payload = Null | Text(json: string)

  datatype KeyRow = KeyRow(id: Id, name: string, tag: TypeTag)

  /**
   * The two tables plus the next id the engine hands out (`LastInsertId`
   * after an insert), and whether the schema cascades key deletions.
   */
  datatype Store = Store(keys: seq<KeyRow>, values: map<Id, Payload>, nextId: Id, cascade: bool)

  /** A freshly created schema with no rows. */
  function Empty(cascade: bool): Store
  {
    Store([], map[], 1, cascade)
  }

  /** A handle on a database; `db` identifies the shared `*sql.DB`. */
  datatype SqliteConn = SqliteConn(db: nat)

  /** `Clone` hands out a second handle on the same database and never fails. */
  function Clone(c: SqliteConn): (r: Result<SqliteConn, ConnError>)
    ensures r.Success? && r.value.db == c.db
  {
    Success(SqliteConn(c.db))
  }

  // ---------------------------------------------------------------------
  // Table invariants

  ghost predicate NamesUnique(keys: seq<KeyRow>)
  {
    forall i, j | 0 <= i < j < |keys| :: keys[i].name != keys[j].name
  }

  ghost predicate IdsUnique(keys: seq<KeyRow>)
  {
    forall i, j | 0 <= i < j < |keys| :: keys[i].id != keys[j].id
  }

  function KeyIds(keys: seq<KeyRow>): set<Id>
  {
    set r | r in keys :: r.id
  }

  /**
   * The invariant every operation keeps: `mapkey` and `id` are unique in
   * `remap_keys`, every key row has its value row, every id in use is below
   * the next id the engine hands out, and under a cascading schema there is
   * no value row without its key row.
   */
  ghost predicate Valid(s: Store)
  {
    && NamesUnique(s.keys)
    && IdsUnique(s.keys)
    && KeyIds(s.keys) <= s.values.Keys
    && (forall id | id in s.values :: id < s.nextId)
    && (s.cascade ==> s.values.Keys == KeyIds(s.keys))
  }

  /** Every key row carries typeString, the only tag the code ever writes. */
  ghost predicate StringOnly(s: Store)
  {
    forall r | r in s.keys :: r.tag == TypeString
  }

  // ---------------------------------------------------------------------
  // Queries

  /** SetString's id lookup by key name: the first row with that name. */
  function FindKey(keys: seq<KeyRow>, name: string): (r: Option<nat>)
    ensures r.Some? ==> r.value < |keys| && keys[r.value].name == name
    ensures r.Some? ==> forall j | 0 <= j < r.value :: keys[j].name != name
    ensures r.None? ==> forall j | 0 <= j < |keys| :: keys[j].name != name
  {
    if |keys| == 0 then None
    else if keys[0].name == name then Some(0)
    else match FindKey(keys[1..], name)
      case None => None
      case Some(i) => Some(i + 1)
  }

  /** A key row that the GetString query joins with a value row. */
  predicate Joins(r: KeyRow, values: map<Id, Payload>, name: string)
  {
    r.name == name && r.tag == TypeString && r.id in values
  }

  /**
   * The join of GetString: the first key row named `name` of type
   * typeString whose id has a value row.
   */
  function SelectJoined(keys: seq<KeyRow>, values: map<Id, Payload>, name: string): (r: Option<nat>)
    ensures r.Some? ==> r.value < |keys| && Joins(keys[r.value], values, name)
    ensures r.Some? ==> forall j | 0 <= j < r.value :: !Joins(keys[j], values, name)
    ensures r.None? ==> forall j | 0 <= j < |keys| :: !Joins(keys[j], values, name)
  {
    if |keys| == 0 then None
    else if Joins(keys[0], values, name) then Some(0)
    else match SelectJoined(keys[1..], values, name)
      case None => None
      case Some(i) => Some(i + 1)
  }

  /** The ids of the key rows named `name`. */
  function IdsNamed(keys: seq<KeyRow>, name: string): set<Id>
  {
    set r | r in keys && r.name == name :: r.id
  }

  /** DelString's delete on the key table: every row with that name goes. */
  function RemoveNamed(keys: seq<KeyRow>, name: string): (r: seq<KeyRow>)
    ensures forall k :: k in r <==> k in keys && k.name != name
    ensures |r| <= |keys|
  {
    if |keys| == 0 then []
    else if keys[0].name == name then RemoveNamed(keys[1..], name)
    else [keys[0]] + RemoveNamed(keys[1..], name)
  }

  // ---------------------------------------------------------------------
  // Transactions

  /**
   * What a transaction reports: whether its body ran to the end, the error
   * returned (if any), and the tables afterwards.
   */
  datatype TxOutcome = TxOutcome(bodyDone: bool, err: Option<ConnError>, store: Store)

  /**
   * Begin, run `body` on the transaction's own view of the tables, then
   * commit.  The deferred Rollback discards every change of a body that
   * fails and of a commit that fails.
   */
  function RunTx(s: Store, faults: set<Step>, body: Store -> Result<Store, ConnError>): (r: TxOutcome)
    ensures r.err.Some? ==> r.store == s
    ensures r.err.None? <==> Begin !in faults && body(s).Success? && Commit !in faults
    ensures r.err.None? ==> r.store == body(s).value
    ensures r.bodyDone <==> Begin !in faults && body(s).Success?
    ensures Begin !in faults && body(s).Failure? ==> r.err == Some(body(s).error)
  {
    if Begin in faults then TxOutcome(false, Some(Failed(Begin)), s)
    else match body(s)
      case Failure(e) => TxOutcome(false, Some(e), s)
      case Success(w) =>
        if Commit in faults then TxOutcome(true, Some(Failed(Commit)), s)
        else TxOutcome(true, None, w)
  }

  /** `doTransaction`: take a raw connection from the pool, then RunTx. */
  function DoTransaction(s: Store, faults: set<Step>, body: Store -> Result<Store, ConnError>): (r: TxOutcome)
    ensures r.err.Some? ==> r.store == s
    ensures r.err.None? <==> AcquireConn !in faults && Begin !in faults && body(s).Success? && Commit !in faults
    ensures r.err.None? ==> r.store == body(s).value
    ensures r.bodyDone <==> AcquireConn !in faults && Begin !in faults && body(s).Success?
    // the body's error, ErrDup included, comes back unchanged
    ensures AcquireConn !in faults && Begin !in faults && body(s).Failure? ==> r.err == Some(body(s).error)
    ensures AcquireConn in faults ==> r.err == Some(Failed(AcquireConn))
  {
    if AcquireConn in faults then TxOutcome(false, Some(Failed(AcquireConn)), s)
    else RunTx(s, faults, body)
  }

  // ---------------------------------------------------------------------
  // Statements used inside the transactions

  datatype InsertFailure = UniqueViolation | StatementFailed

  /**
   * The insert of a typeString key row; the engine assigns `nextId`,
   * which LastInsertId then reports.
   */
  function InsertKeyRow(w: Store, faults: set<Step>, name: string): Result<(Store, Id), InsertFailure>
  {
    if InsertKey in faults then Failure(StatementFailed)
    else if FindKey(w.keys, name).Some? then Failure(UniqueViolation)
    else Success((w.(keys := w.keys + [KeyRow(w.nextId, name, TypeString)], nextId := w.nextId + 1), w.nextId))
  }

  /** The closure SetIfNotExists hands to doTransaction. */
  function SetIfNotExistsBody(faults: set<Step>, key: string, value: string, w: Store): Result<Store, ConnError>
  {
    match InsertKeyRow(w, faults, key)
    case Failure(UniqueViolation) => Failure(Dup)
    case Failure(StatementFailed) => Failure(Failed(InsertKey))
    case Success((w1, id)) =>
      if LastInsertId in faults then Failure(Failed(LastInsertId))
      else if InsertValue in faults then Failure(Failed(InsertValue))
      // the value row is upserted: an existing row with that id is overwritten
      else Success(w1.(values := w1.values[id := Text(value)]))
  }

  /** The statements SetString runs inside its transaction. */
  function SetStringBody(faults: set<Step>, key: string, value: string, w: Store): Result<Store, ConnError>
  {
    if SelectId in faults then Failure(Failed(SelectId))
    else match FindKey(w.keys, key)
      case Some(i) =>
        var id := w.keys[i].id;
        if UpdateValue in faults then Failure(Failed(UpdateValue))
        else if id in w.values then Success(w.(values := w.values[id := Text(value)]))
        // an UPDATE that matches no row is not an error
        else Success(w)
      case None =>
        match InsertKeyRow(w, faults, key)
        case Failure(_) => Failure(Failed(InsertKey))
        case Success((w1, id)) =>
          if LastInsertId in faults then Failure(Failed(LastInsertId))
          // a plain insert: an existing value row with that id is a constraint error
          else if InsertValue in faults || id in w1.values then Failure(Failed(InsertValue))
          else Success(w1.(values := w1.values[id := Text(value)]))
  }

  // ---------------------------------------------------------------------
  // Operations

  /** The steps SetIfNotExists may reach. */
  const SetIfNotExistsSteps: set<Step> := {AcquireConn, Begin, InsertKey, LastInsertId, InsertValue, Commit}

  /** The steps SetString may reach. */
  const SetStringSteps: set<Step> := {Begin, SelectId, UpdateValue, InsertKey, LastInsertId, InsertValue, Commit}

  /** What SetIfNotExists reports: whether the key was created, an error or nil, and the tables afterwards. */
  datatype Attempt = Attempt(created: bool, err: Option<ConnError>, store: Store)

  /**
   * `SQLiteConn.SetIfNotExists`: insert the key row (the uniqueness of
   * `mapkey` decides whether the key is new), then upsert its value row.
   * `created` is the closure's `success` flag, so a failing commit reports
   * `created` together with the commit error.
   */
  function SetIfNotExists(s: Store, faults: set<Step>, key: string, value: string): (r: Attempt)
    // all or nothing
    ensures r.err.Some? ==> r.store == s
    // an existing key is reported as ErrDup, which is passed through unwrapped
    ensures r.err == Some(Dup) <==>
      FindKey(s.keys, key).Some? && AcquireConn !in faults && Begin !in faults && InsertKey !in faults
    ensures r.err == Some(Dup) ==> !r.created
    // success adds exactly one key row and one value row under a fresh id
    ensures r.err.None? ==>
      && r.created
      && FindKey(s.keys, key).None?
      && r.store.keys == s.keys + [KeyRow(s.nextId, key, TypeString)]
      && r.store.values == s.values[s.nextId := Text(value)]
      && r.store.nextId == s.nextId + 1
      && r.store.cascade == s.cascade
    // `created` is set once the value row is written, before the commit is tried
    ensures r.created <==>
      FindKey(s.keys, key).None? && faults !! {AcquireConn, Begin, InsertKey, LastInsertId, InsertValue}
    ensures FindKey(s.keys, key).None? && faults !! SetIfNotExistsSteps ==> r.err.None?
  {
    var t := DoTransaction(s, faults, (w: Store) => SetIfNotExistsBody(faults, key, value, w));
    Attempt(t.bodyDone, t.err, t.store)
  }

  /** What SetString and DelString report: an error or nil, and the tables afterwards. */
  datatype Written = Written(err: Option<ConnError>, store: Store)

  /**
   * `SQLiteConn.SetString`: look the key up; overwrite the payload of an
   * existing key, or insert a key row and a value row for a new one.
   */
  function SetString(s: Store, faults: set<Step>, key: string, value: string): (r: Written)
    ensures r.err.Some? ==> r.store == s
    ensures r.err != Some(Dup) && r.err != Some(NotFound)
    // an existing key keeps its row; only its payload changes
    ensures r.err.None? && FindKey(s.keys, key).Some? ==>
      var id := s.keys[FindKey(s.keys, key).value].id;
      && r.store.keys == s.keys
      && r.store.nextId == s.nextId
      && r.store.cascade == s.cascade
      && r.store.values == (if id in s.values then s.values[id := Text(value)] else s.values)
    // a new key gets one typeString key row and a value row with the same id
    ensures r.err.None? && FindKey(s.keys, key).None? ==>
      && s.nextId !in s.values
      && r.store.keys == s.keys + [KeyRow(s.nextId, key, TypeString)]
      && r.store.values == s.values[s.nextId := Text(value)]
      && r.store.nextId == s.nextId + 1
      && r.store.cascade == s.cascade
    // the plain insert of the value row fails when its id is already taken
    ensures FindKey(s.keys, key).None? && s.nextId in s.values && Begin !in faults && SelectId !in faults
            && InsertKey !in faults && LastInsertId !in faults ==>
      r.err == Some(Failed(InsertValue))
  {
    var t := RunTx(s, faults, (w: Store) => SetStringBody(faults, key, value, w));
    Written(t.err, t.store)
  }

  /** The outcome of GetString's query and scan into a nullable string. */
  datatype Scan = NoRows | ScanFailed | Row(payload: Payload)

  function QueryValue(s: Store, faults: set<Step>, key: string): Scan
  {
    if Query in faults then ScanFailed
    else match SelectJoined(s.keys, s.values, key)
      case None => NoRows
      case Some(i) => Row(s.values[s.keys[i].id])
  }

  /** The string GetString returns for a payload: NULL reads as JSON null. */
  function Rendered(p: Payload): string
  {
    match p
    case Null => "null"
    case Text(j) => j
  }

  /**
   * `SQLiteConn.GetString`.  The NullString stays invalid when the scan
   * fails, so a failing query reads as "null" and the branch that would
   * report the query error can never be taken.
   */
  function GetString(s: Store, faults: set<Step>, key: string): (r: Result<string, ConnError>)
    ensures r.Failure? ==> r.error == NotFound
    ensures Query in faults ==> r == Success("null")
    ensures r.Failure? <==> Query !in faults && SelectJoined(s.keys, s.values, key).None?
    ensures Query !in faults && SelectJoined(s.keys, s.values, key).Some? ==>
      r == Success(Rendered(s.values[s.keys[SelectJoined(s.keys, s.values, key).value].id]))
  {
    var scan := QueryValue(s, faults, key);
    if scan.NoRows? then Failure(NotFound)
    else if !(scan.Row? && scan.payload.Text?) then Success("null")
    else if scan.ScanFailed? then Failure(Failed(Query))
    else Success(scan.payload.json)
  }

  /**
   * `SQLiteConn.DelString`: a single DELETE of the key rows with that name;
   * a cascading schema drops their value rows in the same statement.
   */
  function DelString(s: Store, faults: set<Step>, key: string): (r: Written)
    ensures r.err.Some? ==> r.store == s && r.err == Some(Failed(DeleteKey))
    // deleting an absent key is not an error
    ensures r.err.None? <==> DeleteKey !in faults
    ensures r.err.None? ==> FindKey(r.store.keys, key).None?
    ensures r.err.None? ==> forall k | k in s.keys && k.name != key :: k in r.store.keys
    ensures r.err.None? ==> forall k | k in r.store.keys :: k in s.keys
    ensures r.err.None? ==> r.store.nextId == s.nextId && r.store.cascade == s.cascade
    ensures r.err.None? && !s.cascade ==> r.store.values == s.values
    ensures r.err.None? && s.cascade ==> r.store.values == s.values - IdsNamed(s.keys, key)
  {
    if DeleteKey in faults then Written(Some(Failed(DeleteKey)), s)
    else
      var values := if s.cascade then s.values - IdsNamed(s.keys, key) else s.values;
      Written(None, s.(keys := RemoveNamed(s.keys, key), values := values))
  }

  // ---------------------------------------------------------------------
  // The abstract map the tables represent

  /**
   * The key/value map the GetString query reads: every typeString key row
   * with a value row, the first such row winning for a name.
   */
  function ViewOf(keys: seq<KeyRow>, values: map<Id, Payload>): map<string, Payload>
  {
    if |keys| == 0 then map[]
    else
      var rest := ViewOf(keys[1..], values);
      if Joins(keys[0], values, keys[0].name) then rest[keys[0].name := values[keys[0].id]] else rest
  }

  function View(s: Store): map<string, Payload>
  {
    ViewOf(s.keys, s.values)
  }
}

=== FILE: remap_sqlite_laws.dfy ===
/**
 * Properties of the SQLite store model: the table invariant is kept by every
 * operation, and the operations act on the abstract map `View` as a
 * get/set/delete map does.
 */
module RemapSqliteLaws {
  import opened Wrappers
  import opened StoreErrors
  import opened RemapSqlite

  // ---------------------------------------------------------------------
  // Facts about the key table

  /** Index-wise uniqueness of ids lifted to rows: one row per id. */
  lemma IdsUniqueRows(keys: seq<KeyRow>, a: KeyRow, b: KeyRow)
    requires IdsUnique(keys)
    requires a in keys && b in keys && a.id == b.id
    ensures a == b
  {
    var i :| 0 <= i < |keys| && keys[i] == a;
    var j :| 0 <= j < |keys| && keys[j] == b;
  }

  /** Both uniqueness properties of the key table, together. */
  ghost predicate RowsUnique(keys: seq<KeyRow>)
  {
    NamesUnique(keys) && IdsUnique(keys)
  }

  /** Dropping the first row keeps the rows unique. */
  lemma TailUnique(keys: seq<KeyRow>)
    requires |keys| > 0 && RowsUnique(keys)
    ensures RowsUnique(keys[1..])
    ensures forall r | r in keys[1..] :: r.name != keys[0].name && r.id != keys[0].id
  {
    var rest := keys[1..];
    forall i, j | 0 <= i < j < |rest|
      ensures rest[i].name != rest[j].name && rest[i].id != rest[j].id
    {
      assert rest[i] == keys[i + 1] && rest[j] == keys[j + 1];
    }
    forall r | r in rest
      ensures r.name != keys[0].name && r.id != keys[0].id
    {
      var k :| 0 <= k < |rest| && rest[k] == r;
      assert keys[k + 1] == r;
    }
  }

  /** A row differing in name and id from every row of unique rows may go in front. */
  lemma ConsUnique(k: KeyRow, tail: seq<KeyRow>)
    requires RowsUnique(tail)
    requires forall r | r in tail :: r.name != k.name && r.id != k.id
    ensures RowsUnique([k] + tail)
  {
    var r := [k] + tail;
    forall i, j | 0 <= i < j < |r|
      ensures r[i].name != r[j].name && r[i].id != r[j].id
    {
      assert r[j] == tail[j - 1];
      if i > 0 {
        assert r[i] == tail[i - 1];
      } else {
        assert r[j] in tail;
      }
    }
  }

  /** Removing the rows of one name keeps both uniqueness properties. */
  lemma {:induction false} RemoveNamedUnique(keys: seq<KeyRow>, name: string)
    requires RowsUnique(keys)
    ensures RowsUnique(RemoveNamed(keys, name))
  {
    if |keys| > 0 {
      var rest := keys[1..];
      TailUnique(keys);
      RemoveNamedUnique(rest, name);
      if keys[0].name != name {
        var tail := RemoveNamed(rest, name);
        assert RemoveNamed(keys, name) == [keys[0]] + tail;
        ConsUnique(keys[0], tail);
      }
    }
  }

  /** With unique ids, the ids left after a delete are exactly the others. */
  lemma KeyIdsAfterRemove(keys: seq<KeyRow>, name: string)
    requires IdsUnique(keys)
    ensures KeyIds(RemoveNamed(keys, name)) == KeyIds(keys) - IdsNamed(keys, name)
  {
    var kept := RemoveNamed(keys, name);
    forall id | id in KeyIds(keys) - IdsNamed(keys, name)
      ensures id in KeyIds(kept)
    {
      var r :| r in keys && r.id == id;
      assert r in kept;
    }
    forall id | id in KeyIds(kept)
      ensures id in KeyIds(keys) - IdsNamed(keys, name)
    {
      var r :| r in kept && r.id == id;
      if id in IdsNamed(keys, name) {
        var d :| d in keys && d.name == name && d.id == id;
        IdsUniqueRows(keys, r, d);
      }
    }
  }

  // ---------------------------------------------------------------------
  // Facts about the view

  /** The view reads only the value rows of ids that some key row holds. */
  lemma {:induction false} ViewOfAgree(keys: seq<KeyRow>, v1: map<Id, Payload>, v2: map<Id, Payload>)
    requires forall r | r in keys :: (r.id in v1 <==> r.id in v2)
    requires forall r | r in keys && r.id in v1 :: v1[r.id] == v2[r.id]
    ensures ViewOf(keys, v1) == ViewOf(keys, v2)
  {
    if |keys| > 0 {
      assert forall r | r in keys[1..] :: r in keys;
      ViewOfAgree(keys[1..], v1, v2);
    }
  }

  /** A row with a name no earlier row has lands in the view under that name. */
  lemma {:induction false} ViewOfAppend(keys: seq<KeyRow>, values: map<Id, Payload>, r: KeyRow)
    requires forall k | k in keys :: k.name != r.name
    ensures ViewOf(keys + [r], values) ==
      if Joins(r, values, r.name) then ViewOf(keys, values)[r.name := values[r.id]] else ViewOf(keys, values)
  {
    if |keys| == 0 {
      assert keys + [r] == [r];
      assert [r][1..] == [];
    } else {
      assert (keys + [r])[1..] == keys[1..] + [r];
      assert forall k | k in keys[1..] :: k in keys;
      ViewOfAppend(keys[1..], values, r);
    }
  }

  /** Overwriting the value row of a key row changes the view at its name only. */
  lemma {:induction false} ViewOfUpdate(keys: seq<KeyRow>, values: map<Id, Payload>, i: nat, p: Payload)
    requires i < |keys| && NamesUnique(keys) && IdsUnique(keys)
    requires keys[i].tag == TypeString
    ensures ViewOf(keys, values[keys[i].id := p]) == ViewOf(keys, values)[keys[i].name := p]
  {
    var rest := keys[1..];
    TailUnique(keys);
    var id := keys[i].id;
    var updated := values[id := p];
    if i == 0 {
      ViewOfAgree(rest, updated, values);
      NameNotInView(rest, values, keys[0].name);
    } else {
      ViewOfUpdate(rest, values, i - 1, p);
      assert rest[i - 1] == keys[i];
      assert keys[0].id != id && keys[0].name != keys[i].name;
    }
  }

  /** A name no row carries is not in the view. */
  lemma {:induction false} NameNotInView(keys: seq<KeyRow>, values: map<Id, Payload>, name: string)
    requires forall r | r in keys :: r.name != name
    ensures name !in ViewOf(keys, values)
  {
    if |keys| > 0 {
      assert forall r | r in keys[1..] :: r in keys;
      NameNotInView(keys[1..], values, name);
    }
  }

  /** Deleting the rows of a name removes exactly that name from the view. */
  lemma {:induction false} ViewOfRemoveNamed(keys: seq<KeyRow>, values: map<Id, Payload>, name: string)
    ensures ViewOf(RemoveNamed(keys, name), values) == ViewOf(keys, values) - {name}
  {
    if |keys| > 0 {
      var k := keys[0];
      var rest := keys[1..];
      ViewOfRemoveNamed(rest, values, name);
      var m := ViewOf(rest, values);
      if k.name == name {
        assert RemoveNamed(keys, name) == RemoveNamed(rest, name);
        if Joins(k, values, k.name) {
          UpdateThenRemove(m, name, values[k.id], name);
        }
      } else {
        var tail := RemoveNamed(rest, name);
        assert RemoveNamed(keys, name) == [k] + tail;
        assert ([k] + tail)[1..] == tail;
        if Joins(k, values, k.name) {
          UpdateThenRemove(m, k.name, values[k.id], name);
        }
      }
    }
  }

  lemma UpdateThenRemove(m: map<string, Payload>, a: string, p: Payload, b: string)
    ensures a == b ==> m[a := p] - {b} == m - {b}
    ensures a != b ==> m[a := p] - {b} == (m - {b})[a := p]
  {
  }

  /** The GetString join picks out exactly what the view holds for a name. */
  lemma {:induction false} SelectJoinedIsView(keys: seq<KeyRow>, values: map<Id, Payload>, name: string)
    ensures SelectJoined(keys, values, name).None? <==> name !in ViewOf(keys, values)
    ensures SelectJoined(keys, values, name).Some? ==>
      ViewOf(keys, values)[name] == values[keys[SelectJoined(keys, values, name).value].id]
  {
    if |keys| > 0 {
      SelectJoinedIsView(keys[1..], values, name);
      match SelectJoined(keys[1..], values, name)
      case None =>
      case Some(i) => assert keys[1..][i] == keys[i + 1];
    }
  }

  // ---------------------------------------------------------------------
  // The operations against the view

  /** GetString reads the view: a value when the name is there, NotFound otherwise. */
  lemma GetStringReadsView(s: Store, faults: set<Step>, key: string)
    requires Query !in faults
    ensures GetString(s, faults, key) ==
      if key in View(s) then Success(Rendered(View(s)[key])) else Failure(NotFound)
  {
    SelectJoinedIsView(s.keys, s.values, key);
  }

  /** SetIfNotExists keeps the invariant, and the typeString-only tagging. */
  lemma SetIfNotExistsPreservesValid(s: Store, faults: set<Step>, key: string, value: string)
    requires Valid(s)
    ensures Valid(SetIfNotExists(s, faults, key, value).store)
    ensures StringOnly(s) ==> StringOnly(SetIfNotExists(s, faults, key, value).store)
  {
    var r := SetIfNotExists(s, faults, key, value);
    if r.err.None? {
      AppendKeepsValid(s, key, value);
    }
  }

  /** Appending a key row with a fresh id and a fresh name, with its value row. */
  lemma AppendKeepsValid(s: Store, key: string, value: string)
    requires Valid(s) && FindKey(s.keys, key).None?
    ensures Valid(Store(s.keys + [KeyRow(s.nextId, key, TypeString)], s.values[s.nextId := Text(value)], s.nextId + 1, s.cascade))
  {
    var row := KeyRow(s.nextId, key, TypeString);
    var keys := s.keys + [row];
    assert KeyIds(keys) == KeyIds(s.keys) + {s.nextId} by {
      assert forall r | r in keys :: r in s.keys || r == row;
      assert row in keys;
      assert forall r | r in s.keys :: r in keys;
    }
    assert s.nextId !in KeyIds(s.keys);
    forall i, j | 0 <= i < j < |keys|
      ensures keys[i].name != keys[j].name && keys[i].id != keys[j].id
    {
      if j == |s.keys| {
        assert keys[i] == s.keys[i];
        assert keys[i].id in KeyIds(s.keys);
      } else {
        assert keys[i] == s.keys[i] && keys[j] == s.keys[j];
      }
    }
  }

  /** A successful SetIfNotExists adds the key to the view; a failed one changes nothing. */
  lemma SetIfNotExistsView(s: Store, faults: set<Step>, key: string, value: string)
    requires Valid(s)
    ensures var r := SetIfNotExists(s, faults, key, value);
      && (r.err.None? ==> key !in View(s) && View(r.store) == View(s)[key := Text(value)])
      && (r.err.Some? ==> View(r.store) == View(s))
      && (r.err == Some(Dup) ==> key in View(s) || !StringOnly(s))
  {
    var r := SetIfNotExists(s, faults, key, value);
    var row := KeyRow(s.nextId, key, TypeString);
    if r.err.None? {
      NameNotInView(s.keys, s.values, key);
      var values := s.values[s.nextId := Text(value)];
      assert s.nextId !in KeyIds(s.keys);
      ViewOfAgree(s.keys, values, s.values);
      ViewOfAppend(s.keys, values, row);
    }
    if r.err == Some(Dup) && StringOnly(s) {
      var i := FindKey(s.keys, key).value;
      assert Joins(s.keys[i], s.values, key);
      SelectJoinedIsView(s.keys, s.values, key);
    }
  }

  /** SetString keeps the invariant: the new value row never collides. */
  lemma SetStringPreservesValid(s: Store, faults: set<Step>, key: string, value: string)
    requires Valid(s)
    ensures Valid(SetString(s, faults, key, value).store)
    ensures StringOnly(s) ==> StringOnly(SetString(s, faults, key, value).store)
  {
    var r := SetString(s, faults, key, value);
    if r.err.None? && FindKey(s.keys, key).None? {
      AppendKeepsValid(s, key, value);
    }
  }

  /** On a valid store SetString succeeds unless the engine itself fails. */
  lemma SetStringSucceedsOnValid(s: Store, faults: set<Step>, key: string, value: string)
    requires Valid(s) && faults !! SetStringSteps
    ensures SetString(s, faults, key, value).err.None?
  {
    assert s.nextId !in s.values;
  }

  /** A successful SetString maps the key to the new payload in the view. */
  lemma SetStringView(s: Store, faults: set<Step>, key: string, value: string)
    requires Valid(s) && StringOnly(s)
    ensures var r := SetString(s, faults, key, value);
      && (r.err.None? ==> View(r.store) == View(s)[key := Text(value)])
      && (r.err.Some? ==> View(r.store) == View(s))
  {
    var r := SetString(s, faults, key, value);
    if r.err.None? {
      match FindKey(s.keys, key)
      case Some(i) =>
        assert s.keys[i] in s.keys;
        ViewOfUpdate(s.keys, s.values, i, Text(value));
      case None =>
        var row := KeyRow(s.nextId, key, TypeString);
        var values := s.values[s.nextId := Text(value)];
        assert s.nextId !in KeyIds(s.keys);
        ViewOfAgree(s.keys, values, s.values);
        ViewOfAppend(s.keys, values, row);
    }
  }

  /** After a successful SetString, GetString of the key returns the value written. */
  lemma SetStringThenGetString(s: Store, f1: set<Step>, f2: set<Step>, key: string, value: string)
    requires Valid(s) && StringOnly(s)
    requires SetString(s, f1, key, value).err.None? && Query !in f2
    ensures GetString(SetString(s, f1, key, value).store, f2, key) == Success(value)
  {
    SetStringView(s, f1, key, value);
    GetStringReadsView(SetString(s, f1, key, value).store, f2, key);
  }

  /** A freshly created schema meets the invariant and represents the empty map. */
  lemma EmptyValid(cascade: bool)
    ensures Valid(Empty(cascade)) && StringOnly(Empty(cascade)) && View(Empty(cascade)) == map[]
  {
  }

  /** DelString keeps the invariant, under either schema. */
  lemma DelStringPreservesValid(s: Store, faults: set<Step>, key: string)
    requires Valid(s)
    ensures Valid(DelString(s, faults, key).store)
    ensures StringOnly(s) ==> StringOnly(DelString(s, faults, key).store)
  {
    if DeleteKey !in faults {
      RemoveNamedUnique(s.keys, key);
      KeyIdsAfterRemove(s.keys, key);
    }
  }

  /** A successful DelString removes exactly the key from the view. */
  lemma DelStringView(s: Store, faults: set<Step>, key: string)
    requires Valid(s)
    ensures var r := DelString(s, faults, key);
      && (r.err.None? ==> View(r.store) == View(s) - {key})
      && (r.err.Some? ==> View(r.store) == View(s))
  {
    var r := DelString(s, faults, key);
    if r.err.None? {
      var kept := RemoveNamed(s.keys, key);
      ViewOfRemoveNamed(s.keys, s.values, key);
      KeyIdsAfterRemove(s.keys, key);
      forall k | k in kept
        ensures k.id in s.values <==> k.id in r.store.values
        ensures k.id in s.values ==> s.values[k.id] == r.store.values[k.id]
      {
        assert k.id in KeyIds(kept);
      }
      ViewOfAgree(kept, r.store.values, s.values);
    }
  }

  /** After a successful delete the key reads as NotFound, on any store. */
  lemma DelThenGetNotFound(s: Store, faults: set<Step>, key: string)
    requires DeleteKey !in faults && Query !in faults
    ensures GetString(DelString(s, faults, key).store, faults, key) == Failure(NotFound)
  {
    var t := DelString(s, faults, key).store;
    assert FindKey(t.keys, key).None?;
  }

  /**
   * The fresh id is what keeps SetString's plain insert of the value row
   * safe: on tables where the next id already has a value row (an orphan a
   * non-cascading delete left behind under id reuse), SetString fails while
   * SetIfNotExists, which upserts, succeeds.
   */
  lemma OrphanValueRowBreaksOnlySetString(s: Store, faults: set<Step>, key: string, value: string)
    requires FindKey(s.keys, key).None? && s.nextId in s.values
    requires faults !! SetIfNotExistsSteps + SetStringSteps + {Query}
    ensures !Valid(s)
    ensures SetString(s, faults, key, value).err == Some(Failed(InsertValue))
    ensures SetIfNotExists(s, faults, key, value).err.None?
    ensures GetString(SetIfNotExists(s, faults, key, value).store, faults, key) == Success(value)
  {
    var t := SetIfNotExists(s, faults, key, value).store;
    var n := |s.keys|;
    assert Joins(t.keys[n], t.values, key);
    // no earlier row joins: none of them carries the name
    assert forall j | 0 <= j < n :: t.keys[j] == s.keys[j];
  }
}

=== FILE: store_errors.dfy ===
/**
 * The errors a storage connection reports.  The sentinel errors `ErrDup` and
 * `ErrNotFound` of package remap are the first two variants; every other
 * failure is an error of the SQL engine, recorded by the statement that
 * raised it (the wrapping text added with `fmt.Errorf` is not modelled).
 */
module StoreErrors {

  /** The points at which the SQL engine may fail, one per statement or call. */
  datatype Step =
    | AcquireConn    // taking a connection from the pool in doTransaction
    | Begin          // beginning a transaction
    | SelectId       // SetString's lookup of the key's id
    | InsertKey      // inserting a key row
    | LastInsertId   // reading the id the engine assigned
    | InsertValue    // inserting a value row
    | UpdateValue    // SetString's update of an existing payload
    | Commit         // committing the transaction
    | Query          // GetString's query joining the two tables
    | DeleteKey      // DelString's delete of key rows

  datatype ConnError =
    | Dup                  // remap.ErrDup: the key name already exists
    | NotFound             // remap.ErrNotFound: no value under that key
    | Failed(at: Step)     // any other error of the SQL engine
}

=== FILE: values.dfy ===
/**
 * The two foreign facilities the facade leans on: `reflect` kind inspection,
 * as an enumeration, and `encoding/json`, as an abstract encoder/decoder pair
 * supplied by the caller.
 */
module Values {
  import opened Wrappers

  /**
   * `reflect.Kind`; the sized integer, unsigned and float kinds are folded
   * into one variant each.  A pointer records the kind it points to, or
   * None for a nil pointer.
   */
  datatype Kind =
    | Invalid | Bool | Int | Uint | Float | Complex | String
    | Func | Interface | UnsafePointer
    | Map | Array | Struct | Slice | Chan
    | Pointer(target: Option<Kind>)

  /**
   * `reflect.Indirect(v).Kind()`: one level of pointer is followed, and a
   * nil pointer gives the zero Value, whose kind is Invalid.
   */
  function Indirect(k: Kind): Kind
  {
    match k
    case Pointer(None) => Invalid
    case Pointer(Some(t)) => t
    case _ => k
  }

  /** The kinds the facade refuses, checked after one indirection. */
  predicate Composite(k: Kind)
  {
    Indirect(k) in {Map, Array, Struct, Slice, Chan}
  }

  /**
   * A value is refused when it is, or points directly to, a map, array,
   * struct, slice or channel; a pointer to a pointer, a nil pointer and an
   * interface get past this kind check whatever they hold.
   */
  lemma CompositeIsOneIndirection(k: Kind)
    ensures Composite(k) <==>
      || k in {Map, Array, Struct, Slice, Chan}
      || (k.Pointer? && k.target.Some? && k.target.value in {Map, Array, Struct, Slice, Chan})
    ensures Composite(Pointer(Some(Pointer(Some(Struct))))) == false
    ensures !Composite(Pointer(None)) && !Composite(Interface)
  {
  }

  /**
   * `json.Marshal` and `json.Unmarshal` on values of type T, with each
   * value's kind and T's zero value.  `unmarshal` decodes every text but
   * JSON null, which `Decode` handles.
   */
  datatype Codec<!T> = Codec(kindOf: T -> Kind, marshal: T -> Option<string>, unmarshal: string -> Option<T>, zero: T)

  /** `json.Unmarshal` writes only through a non-nil pointer and refuses any other target. */
  predicate Settable(target: Kind)
  {
    target.Pointer? && target.target.Some?
  }

  /** The kinds of variable a JSON null resets to the zero value; any other variable keeps its value. */
  predicate Nillable(k: Kind)
  {
    k.Pointer? || k == Interface
  }

  /**
   * `json.Unmarshal(text, p)` where `p` points to a variable of kind `elem`
   * that holds `current`: JSON null never fails, and only resets a nillable
   * variable; any other text is the codec's decoding.
   */
  function Decode<T>(c: Codec<T>, elem: Kind, text: string, current: T): Option<T>
  {
    if text == "null" then Some(if Nillable(elem) then c.zero else current)
    else c.unmarshal(text)
  }

  /** Decoding what was encoded, into a variable of the value's kind, gives the value back. */
  ghost predicate Inverts<T(!new)>(c: Codec<T>)
  {
    forall v, current | c.marshal(v).Some? :: Decode(c, c.kindOf(v), c.marshal(v).value, current) == Some(v)
  }
}

=== FILE: wrappers.dfy ===
/** Failure-compatible wrappers shared by the store model and the facade. */
module Wrappers {

  /** A value that may be absent (a Go nil, or SQL NULL, or "no row"). */
  datatype Option<+T> = None | Some(value: T)

  /** A Go `(value, error)` pair where exactly one side is meaningful. */
  datatype Result<+T, +E> = Success(value: T) | Failure(error: E)
}
